=== FILE: README.md ===
# rwalk: CSR graph construction and walk-buffer setup, in Dafny

`rwalk` reads an undirected edge list and turns it into a compressed-sparse-row
(CSR) graph. It then hands that graph to a native random-walk engine. This project
models the Python half of that pipeline as pure Dafny functions and proves what the
pipeline promises about it.

`read_edgelist` has these steps:

1. It checks that the parsed table has exactly two columns.
2. It sorts each pair so the smaller id comes first.
3. It symmetrises the list by stacking the reversed pairs under the original ones.
4. It orders all directed entries by the `int64` key `src * INT32_MAX + dst`.
5. It counts the out-degree of each node with `np.unique`.
6. It scatters those counts into a zero-filled `degs` array.
7. It builds `ptr` by prefix-summing `degs`.
8. It takes `neighs` as the destination column of the sorted entries.

`random_walk` derives the node count `n = ptr.size - 1`. It then allocates the
`(n * num_walks, num_steps + 1)` result matrix, with every cell set to `-1`, and
passes a flat row-major view of it to the engine.

Modules:

- `Results`: the `Result` type used for every failure path.
- `Sorting`: a key-based sort (insertion sort by a key function). It also proves
  that a key-sorted permutation is unique when the key is injective.
- `ArrayOps`: the NumPy primitives the builder uses:
  - `np.zeros`
  - `np.cumsum`
  - `np.unique(..., return_counts=True)`, as a sort followed by run-length counting
  - the fancy-index assignment `a[idx] = vals`
- `Edges`: the edge type and the pair-level steps:
  - canonicalisation
  - symmetrisation
  - the largest id
  - the composite sort key
  - per-source blocks of a sorted list
- `Csr`: `read_edgelist` itself (`ReadEdgelist`), its error taxonomy, and the CSR
  invariant `IsCsrOf`. Every successful build satisfies that invariant.
- `CsrProperties`: whole-pipeline consequences. They cover:
  - adjacency counts in terms of the input rows
  - symmetry
  - independence from row order and from how `argsort` breaks ties
  - uniqueness of the CSR form
- `Walks`: the walk-buffer allocation and its flat view.

The input is the table `np.genfromtxt` produced, given as a sequence of rows of
natural numbers. `ReadEdgelist` fails in three ways:

- `EmptyInput`: there are no rows. The code then fails on the shape assertion or on
  `np.amax` of an empty array.
- `BadRowWidth(row, width)`: some row does not have two columns. The model reports
  the first such row.
- `IdOverflow(maxId)`: the largest id is `INT32_MAX - 1` or more. Under NumPy 2's
  promotion rules, `n = np.amax(edges) + 1` is an `int32` scalar.
  - A largest id of `INT32_MAX` makes `n` wrap negative, and `np.zeros((n,))` on
    line 67 refuses it.
  - A largest id of `INT32_MAX - 1` gives `n = INT32_MAX`. Then `n + 1` wraps
    negative, and `np.zeros((n+1,))` on line 69 refuses it.

Every successful build therefore has all ids below `INT32_MAX - 1`. Under that bound:

- The sort key is injective, is ordered lexicographically, and fits in `int64`.
- `argsort`'s unstable tie-breaking cannot change the result, since the key never
  ties two different entries.

## Model

| member | source | states |
|---|---|---|
| Csr.ReadEdgelist | rwalk/__init__.py:46-71 | Succeeds exactly when the table is non-empty, every row has two columns and every id is below INT32_MAX - 1. It gives EmptyInput exactly for the empty table and IdOverflow for a well-shaped table with a too-large id. A non-empty table with a row of the wrong width gets exactly the error of the first such row (BadRowWidth), never IdOverflow. On success the graph is the CSR form of the symmetrised rows over `max id + 1` nodes, with `2 * rows` neighbours. |
| Csr.ToEdges | rwalk/__init__.py:46-47 | The shape check: succeeds exactly for a non-empty table of two-column rows and then yields one edge per row, in order. It fails with EmptyInput exactly for the empty table, and otherwise names the first row whose width is not 2. |
| Csr.FirstBadRow | rwalk/__init__.py:47 | The search for the offending row: every row before the answer has width 2, and the answer is either past the end or a row whose width is not 2. |
| Csr.RowEdges | rwalk/__init__.py:46-47 | A well-shaped table becomes one edge per row, with column 0 as source and column 1 as destination. |
| Edges.Canonical | rwalk/__init__.py:50 | Sorting one pair gives `src <= dst`, and the result is the pair itself or its reversal. |
| Edges.Canonicalize | rwalk/__init__.py:50 | `edges.sort(axis=1)`: same length, and every row ordered and equal to the input row or its reversal. |
| CsrProperties.CanonicalCount | rwalk/__init__.py:50 | After canonicalisation, an ordered pair (u, v) with u <= v occurs once for each input row joining u and v in either order. A pair with u > v never occurs. |
| Edges.MaxId | rwalk/__init__.py:51 | `np.amax` of a non-empty edge list bounds every id and is attained by some id. |
| Edges.CanonicalizeKeepsMaxId | rwalk/__init__.py:50-51 | Sorting each pair changes no id, so `np.amax` of the oriented table equals that of the raw rows. |
| Csr.NodeCount | rwalk/__init__.py:51 | `n = np.amax(edges) + 1`: at least 1, above every row id, and one more than an id some row holds. |
| Csr.MaxIdIsLargestRowId | rwalk/__init__.py:51-69 | `n - 1` is the largest id in the table: every row id is below `n`, some row id equals `n - 1`, and the table is accepted exactly when `n < INT32_MAX`, so that `n + 1` fits an int32. |
| Edges.Flips | rwalk/__init__.py:54 | `edges[:, ::-1]`: same length, and each entry is the reversal (`Edges.Flip`, source and destination swapped) of the row at the same index. |
| Edges.Symmetrize | rwalk/__init__.py:54 | `np.vstack`: twice the length, the original rows first and their reversals after, index for index. |
| Edges.SymmetrizeCount | rwalk/__init__.py:54 | The symmetrised list holds an entry as often as the input holds it or its reversal. Each entry occurs as often as its reversal, so a self-loop appears twice and duplicates are kept. |
| Edges.FlipsCount | rwalk/__init__.py:54 | The reversed block holds an entry as often as the input holds its reversal. |
| CsrProperties.EntryCount | rwalk/__init__.py:50-54 | After canonicalisation and symmetrisation, (u, v) occurs once per input row joining u and v, or twice per row when u = v. |
| Csr.Entries | rwalk/__init__.py:50-54 | The directed entries: twice as many as rows. Entry i is row i ordered with the smaller id first, and entry `len(rows) + i` is its reversal. |
| Edges.KeyOrderIsLex | rwalk/__init__.py:57-60 | With destinations below INT32_MAX, the key `src * INT32_MAX + dst` orders entries lexicographically by (src, dst), and two entries share a key only if they are equal. |
| Edges.Key | rwalk/__init__.py:57-60 | The `_tmp` key is non-negative and, while the destination is below INT32_MAX, encodes the pair: dividing by INT32_MAX recovers the source and the remainder the destination. |
| Edges.KeyFitsInt64 | rwalk/__init__.py:57-60 | With both ids below INT32_MAX, the key is non-negative and below 2^63, so the `int64` buffer never overflows. |
| Edges.KeySortedIsLexSorted | rwalk/__init__.py:57-63 | For ids below INT32_MAX, a list is sorted by the key exactly when it is sorted lexicographically, and the key is injective on it. |
| Sorting.SortBy | rwalk/__init__.py:62-63 | `duplicated_edges[np.argsort(key)]`: a permutation of the input that is sorted by the key. |
| Sorting.Insert | rwalk/__init__.py:62-63 | Inserting into a key-sorted list adds exactly that element and keeps it sorted. |
| Sorting.SortedPermutationUnique | rwalk/__init__.py:62-63 | Two key-sorted permutations of the same list are equal when the key is injective on it. |
| Csr.SortedEntries | rwalk/__init__.py:54-63 | `sorted_edges` is a permutation of the symmetrised list, sorted by the composite key. |
| CsrProperties.ArgsortTiesInvisible | rwalk/__init__.py:62-63 | For ids below INT32_MAX, every key-sorted permutation of the symmetrised list equals the modelled `sorted_edges`, so however `argsort` orders ties the result is the same. |
| ArrayOps.RunLengths | rwalk/__init__.py:66 | On a sorted column, returns strictly increasing distinct values (exactly the values present, starting with the first) and, for each, its number of occurrences. |
| ArrayOps.Unique | rwalk/__init__.py:66 | `np.unique(..., return_counts=True)`: strictly increasing values, exactly the values present in the input, each with its multiplicity. |
| Edges.SrcCount | rwalk/__init__.py:66 | The count of `v` in the source column is the number of entries leaving `v`. |
| ArrayOps.Zeros | rwalk/__init__.py:67 | `np.zeros(n)`: length n, every element 0. |
| ArrayOps.Scatter | rwalk/__init__.py:68 | `base[idx] = vals`: same length, and untouched positions keep their value. A position listed once takes its value. For a position listed more than once, the last assignment wins; that is a modelling choice (see Left out). |
| Csr.Degrees | rwalk/__init__.py:66-68 | `degs[v]` is the number of entries leaving node v, for every v below n. Nodes with no entries get 0. |
| Csr.DegreesFacts | rwalk/__init__.py:66-68 | Scattering the `np.unique` counts into zeros gives each node its out-degree. |
| ArrayOps.CumSum | rwalk/__init__.py:70 | `np.cumsum`: same length, and element i is the sum of the first i + 1 inputs. |
| Csr.Offsets | rwalk/__init__.py:69-70 | `ptr = [0] + cumsum(degs)`: one longer than `degs`, and `ptr[i]` is the sum of the first i degrees. |
| Csr.PrefixIsBelow | rwalk/__init__.py:69-70 | The sum of the first i degrees is the number of entries whose source is below i. |
| Csr.OffsetsCountBelow | rwalk/__init__.py:66-70 | The built `ptr` has n + 1 elements, starts at 0, is monotone, ends at `len(neighs)`, and `ptr[i]` counts the entries with source below i. |
| Edges.OutOfCount | rwalk/__init__.py:66-71 | The entries leaving v are exactly the entries with source v, with their multiplicities. |
| Edges.BelowStep | rwalk/__init__.py:69-70 | The entries below v + 1 are those below v plus those leaving v. |
| Edges.BelowSteps | rwalk/__init__.py:69-70 | For every node below n, the count of entries below it grows by exactly its out-degree at the next node. |
| Edges.BelowMonotone | rwalk/__init__.py:69-70 | The count of entries below v is monotone in v and bounded by the length. |
| Edges.BelowAll | rwalk/__init__.py:70 | When every source is below n, the entries below n are all of them, so `ptr[n] == len(neighs)`. |
| Edges.SortedBlock | rwalk/__init__.py:63-71 | In a lexicographically sorted list, the entries leaving v are exactly the contiguous block between the counts below v and below v + 1. |
| Edges.DstCount | rwalk/__init__.py:71 | In a block with a single source v, the destination column holds d as often as the block holds (v, d). |
| Csr.SliceIsOutOf | rwalk/__init__.py:63-71 | The slice `neighs[ptr[v]:ptr[v+1]]` has the out-degree of v as its length, holds exactly the destinations of the entries leaving v, and is ascending. |
| Csr.SortedEntriesFormCsr | rwalk/__init__.py:63-71 | Offsets from the degrees plus the destination column of any lexicographically sorted permutation of the entries form the CSR of those entries. |
| Edges.Srcs | rwalk/__init__.py:66 | `sorted_edges[:,0]`, the column `np.unique` counts: one element per entry, element i being the source of entry i. |
| Edges.Dsts | rwalk/__init__.py:71 | `np.copy(sorted_edges[:,1])`: one element per entry, element i being the destination of entry i. |
| Csr.BuildFromRows | rwalk/__init__.py:50-71 | The build of a well-shaped table, in terms of the table: it succeeds exactly when every id is below INT32_MAX - 1, otherwise fails with IdOverflow, and on success gives the CSR form of the symmetrised rows over `max id + 1` nodes with `2 * rows` neighbours. |
| Csr.FromSorted | rwalk/__init__.py:66-71 | The `degs`/`ptr`/`neighs` assembly: `ptr` has n + 1 offsets, starts at 0, never decreases and ends at `len(neighs)`; cell k of `neighs` is the destination of sorted entry k, so there is one cell per entry; consecutive offsets differ by the node's out-degree. |
| Csr.BelowOffsetsFormCsr | rwalk/__init__.py:63-71 | Offsets that count the entries below each node, over the destination column of a lexicographically sorted permutation, form the CSR of those entries. |
| Csr.BuildGraph | rwalk/__init__.py:50-71 | For edges already read: fails with IdOverflow exactly when the largest id reaches INT32_MAX - 1, where `n` or `n + 1` wraps in int32. Otherwise yields the CSR of the symmetrised edges over `max id + 1` nodes with `2 * edges` neighbours. |
| Csr.SortedEntriesBounded | rwalk/__init__.py:51-63 | Reordering the symmetrised list keeps every id at most the largest id, so every neighbour is below n. |
| CsrProperties.NeighbourCountIsEntryCount | rwalk/__init__.py:63-71 | In a CSR form, d occurs in node v's slice as often as the entry (v, d) occurs. |
| CsrProperties.NeighbourCountMatchesRows | rwalk/__init__.py:46-71 | After a successful read, v occurs among u's neighbours once per input row joining them, in either order. A self-loop counts twice per row. The adjacency is symmetric. |
| CsrProperties.OccurrencesSymmetric | rwalk/__init__.py:50 | Rows joining u and v are counted the same whichever endpoint is named first. |
| CsrProperties.MaxIdPermutation | rwalk/__init__.py:51 | `np.amax` does not depend on row order. |
| CsrProperties.SameRowsSameSortedEntries | rwalk/__init__.py:54-63 | Two edge lists with the same canonical pairs, counted with multiplicity, give the same `sorted_edges`. |
| CsrProperties.LargestIdOneBelowInt32MaxRefused | rwalk/__init__.py:51-69 | The table `[[0, INT32_MAX - 1], [0, 1]]` is refused with IdOverflow: `n = INT32_MAX` fits, but the `ptr` length `n + 1` wraps negative. |
| CsrProperties.ReorderedRowsSameGraph | rwalk/__init__.py:46-71 | Two tables with the same canonical pairs, with multiplicity (reordered rows, or pairs written in the other order), read to the same result, whether a graph or an error. |
| CsrProperties.CsrUnique | rwalk/__init__.py:66-71 | A CSR form is determined by its entries and node count: two graphs that are both the CSR of the same entries are equal. |
| CsrProperties.OffsetsAgree | rwalk/__init__.py:69-70 | Two CSR forms of the same entries have equal offsets. |
| CsrProperties.PrefixesAgree | rwalk/__init__.py:71 | Two CSR forms of the same entries with equal offsets have equal neighbour prefixes up to every node. |
| Edges.OutOfPermutation | rwalk/__init__.py:63 | Reordering entries does not change which entries leave a node, nor how many. |
| Edges.DstsPermutation | rwalk/__init__.py:71 | Two reorderings of one single-source block have the same destinations. |
| Walks.WalkBuffer | rwalk/__init__.py:20-27 | `-np.ones((n * num_walks, num_steps + 1))` with `n = ptr.size - 1`, the parameters defaulting to 10 and 3: exists exactly when neither dimension is negative, and then has `n * num_walks` rows of `num_steps + 1` cells, all -1. Otherwise it fails with the negative shape. |
| Walks.Flatten | rwalk/__init__.py:38 | `np.reshape(walks, (walks.size,))`: a value occurs in the flat view exactly when it occurs in some row. |
| Walks.FlattenLength | rwalk/__init__.py:38 | `np.reshape(walks, (walks.size,))` of a rows x cols matrix has rows * cols cells. |
| Walks.FlattenCell | rwalk/__init__.py:38 | In the row-major flat view, cell (k, c) sits at offset `k * cols + c`. |
| Walks.FlattenFilled | rwalk/__init__.py:38 | Flattening a matrix whose cells are all x gives cells that are all x. |
| Walks.FlatBufferUnwritten | rwalk/__init__.py:26-38 | The engine receives `n * num_walks * (num_steps + 1)` cells, all -1. |
| Walks.BufferForNodes | rwalk/__init__.py:26-27 | For offsets describing n nodes and non-negative walk parameters, the buffer always exists with `n * num_walks` rows. |
| Walks.DefaultBufferShape | rwalk/__init__.py:20-27 | Called with the default `num_walks=10, num_steps=3`, a graph of n nodes gets `10 * n` rows of 4 cells, all -1. |
| Walks.PtrCoversNodes | rwalk/__init__.py:26 | The build succeeds, and `ptr.size - 1` of a built graph is the node count `read_edgelist` computed. |
| Walks.BufferForBuiltGraph | rwalk/__init__.py:26-27 | On a graph `read_edgelist` built, the walk buffer always exists and has one row per walk from every node. |

## Left out

- Text parsing (`np.genfromtxt`: comments, delimiters, integer conversion) is outside the model. The input is the parsed table. A one-line file, which `genfromtxt` squeezes to a one-dimensional array and so fails the shape assertion, is modelled as an ordinary one-row table.
- Node ids are natural numbers, so negative ids are not modelled. The code has no explicit check for them. A negative id in `[-n, 0)` reaches `degs[vals] = counts` (line 68), which silently writes the count into the degree of node `n + id`. A negative id below `-n` makes that line raise IndexError, unless every id is at most -2: then `n` itself is negative and `np.zeros((n,))` on line 67 raises ValueError first. The model claims neither behaviour.
- The model follows NumPy 2's promotion rules, under which `np.amax(edges) + 1` stays an `int32` scalar and wraps. Under NumPy 1.x the sum becomes `int64` and nothing wraps. The refusal of a largest id of `INT32_MAX - 1` or `INT32_MAX` (`IdOverflow`) is therefore NumPy 2 behaviour.
- ArrayOps.Scatter: NumPy does not specify which value a position receives when an index repeats in an advanced assignment. The model picks last-write-wins. The builder only scatters the distinct values `np.unique` returns, where the question does not arise.
- Fixed widths are not modelled. The `int32` of `degs`, `ptr` and `neighs` is left out, and so is `cumsum`'s truncation back into `int32` once the total degree reaches 2^31. Only the `int32` wraps of `n = max + 1` and `n + 1` (as `IdOverflow`) and the `int64` range of the sort key are modelled.
- Duplicate rows are kept as repeated neighbours, as the code does. Nothing deduplicates them.
- The ownership, contiguity, dtype and write-flag assertions are NumPy memory bookkeeping with no counterpart in a value model. This covers lines 21-24, 28 and 73-82.
- The loading of the native library and the message printed on import are left out. They are I/O.
- The native walk simulation is not part of this model: stepping, the random-number stream, the seed, thread partitioning, and the row-to-(start node, walk number) layout the engine uses. Its source is C code the model cannot see, so `Walks` stops at the buffer handed to it.
- `np.unique` is modelled through its result, not its internal algorithm. The values are sorted, distinct and present; the counts are multiplicities.
- `np.argsort` is modelled as a deterministic insertion sort by the same key. `CsrProperties.ArgsortTiesInvisible` shows that any other key-sorted order gives the same entries.

=== FILE: array_ops.dfy ===
/**
 The NumPy primitives the graph builder is assembled from, on sequences of
 naturals: `np.unique(..., return_counts=True)`, fancy-index assignment
 `a[idx] = vals`, `np.zeros` and `np.cumsum`.
 */
module ArrayOps {
  import opened Sorting

  /** The identity key, for sorting naturals by value. */
  function Id(x: nat): int { x }

  /** The values of `xs` strictly increase. */
  predicate StrictlyIncreasing(xs: seq<nat>) {
    forall i, j :: 0 <= i < j < |xs| ==> xs[i] < xs[j]
  }

  /** Sum of all elements, peeled from the right. */
  function Sum(xs: seq<nat>): nat {
    if |xs| == 0 then 0 else Sum(xs[..|xs| - 1]) + xs[|xs| - 1]
  }

  /** `np.zeros((n,))`. */
  function Zeros(n: nat): (r: seq<nat>)
    ensures |r| == n && forall i :: 0 <= i < n ==> r[i] == 0
  {
    seq(n, _ => 0)
  }

  /** `np.cumsum(xs)`: element `i` is the total of `xs[0..i]` inclusive. */
  function CumSum(xs: seq<nat>): (r: seq<nat>)
    ensures |r| == |xs|
    ensures forall i :: 0 <= i < |xs| ==> r[i] == Sum(xs[..i + 1])
  {
    if |xs| == 0 then []
    else
      var p := CumSum(xs[..|xs| - 1]);
      assert forall i :: 0 <= i < |p| ==> p[i] == Sum(xs[..i + 1]) by {
        forall i | 0 <= i < |p|
          ensures p[i] == Sum(xs[..i + 1])
        {
          assert xs[..|xs| - 1][..i + 1] == xs[..i + 1];
        }
      }
      assert xs[..|xs|] == xs;
      p + [(if |p| == 0 then 0 else p[|p| - 1]) + xs[|xs| - 1]]
  }

  /**
   Run-length grouping of an ascending sequence: the distinct values in
   increasing order, each with its number of occurrences.
   */
  function RunLengths(xs: seq<nat>): (r: (seq<nat>, seq<nat>))
    requires SortedBy(xs, Id)
    ensures RunLengthsOf(xs, r.0, r.1)
  {
    if |xs| == 0 then ([], [])
    else
      var (vals, counts) := RunLengths(xs[1..]);
      if |vals| > 0 && vals[0] == xs[0] then
        RunLengthsExtend(xs, vals, counts);
        (vals, counts[0 := counts[0] + 1])
      else
        RunLengthsPrepend(xs, vals, counts);
        ([xs[0]] + vals, [1] + counts)
  }

  /**
   `vals` lists the distinct values of `xs` in increasing order, `counts` how
   often each occurs, and a non-empty `xs` starts with the first of them.
   */
  ghost predicate RunLengthsOf(xs: seq<nat>, vals: seq<nat>, counts: seq<nat>) {
    && |vals| == |counts|
    && StrictlyIncreasing(vals)
    && (forall v :: v in vals <==> v in xs)
    && (forall k :: 0 <= k < |vals| ==> counts[k] == multiset(xs)[vals[k]])
    && (|xs| > 0 ==> |vals| > 0 && vals[0] == xs[0])
  }

  /** Another copy of the first value only raises the first count. */
  lemma RunLengthsExtend(xs: seq<nat>, vals: seq<nat>, counts: seq<nat>)
    requires |xs| > 0 && SortedBy(xs, Id)
    requires RunLengthsOf(xs[1..], vals, counts)
    requires |vals| > 0 && vals[0] == xs[0]
    ensures RunLengthsOf(xs, vals, counts[0 := counts[0] + 1])
  {
    assert xs == [xs[0]] + xs[1..];
    assert multiset(xs) == multiset{xs[0]} + multiset(xs[1..]);
    forall v ensures v in vals <==> v in xs {
      assert v in xs <==> v == xs[0] || v in xs[1..];
    }
    forall k | 0 < k < |vals| ensures vals[k] != xs[0] {
      assert vals[0] < vals[k];
    }
  }

  /** A first value that differs from the first group is smaller than every later value. */
  lemma FirstValueIsNew(xs: seq<nat>, vals: seq<nat>, counts: seq<nat>)
    requires |xs| > 0 && SortedBy(xs, Id)
    requires RunLengthsOf(xs[1..], vals, counts)
    requires !(|vals| > 0 && vals[0] == xs[0])
    ensures xs[0] !in xs[1..]
    ensures forall k :: 0 <= k < |vals| ==> xs[0] < vals[k]
  {
    var t := xs[1..];
    if |vals| > 0 {
      assert vals[0] in t;
      assert |t| > 0 && vals[0] == t[0] == xs[1];
      assert Id(xs[0]) <= Id(xs[1]);
      forall k | 0 < k < |vals| ensures xs[0] < vals[k] {
        assert vals[0] < vals[k];
      }
    }
  }

  /** A value smaller than everything after it opens a new group. */
  lemma RunLengthsPrepend(xs: seq<nat>, vals: seq<nat>, counts: seq<nat>)
    requires |xs| > 0 && SortedBy(xs, Id)
    requires RunLengthsOf(xs[1..], vals, counts)
    requires !(|vals| > 0 && vals[0] == xs[0])
    ensures RunLengthsOf(xs, [xs[0]] + vals, [1] + counts)
  {
    var t := xs[1..];
    FirstValueIsNew(xs, vals, counts);
    assert xs == [xs[0]] + t;
    assert multiset(xs) == multiset{xs[0]} + multiset(t);
    var vals', counts' := [xs[0]] + vals, [1] + counts;
    forall i, j | 0 <= i < j < |vals'| ensures vals'[i] < vals'[j] {
      assert vals'[j] == vals[j - 1];
      if i > 0 {
        assert vals'[i] == vals[i - 1];
      }
    }
    forall v ensures v in vals' <==> v in xs {
      assert v in xs <==> v == xs[0] || v in t;
      assert v in vals' <==> v == xs[0] || v in vals;
    }
    forall k | 0 < k < |vals'| ensures counts'[k] == multiset(xs)[vals'[k]] {
      assert vals'[k] == vals[k - 1] && counts'[k] == counts[k - 1];
    }
  }

  /**
   `np.unique(xs, return_counts=True)`: the distinct values of `xs` in
   increasing order and how often each occurs.
   */
  function Unique(xs: seq<nat>): (r: (seq<nat>, seq<nat>))
    ensures |r.0| == |r.1|
    ensures StrictlyIncreasing(r.0)
    ensures forall v :: v in r.0 <==> v in xs
    ensures forall k :: 0 <= k < |r.0| ==> r.1[k] == multiset(xs)[r.0[k]]
  {
    var sorted := SortBy(xs, Id);
    assert forall v :: v in sorted <==> v in multiset(xs);
    var (vals, counts) := RunLengths(sorted);
    (vals, counts)
  }

  /**
   `base[idx] = vals`: each listed position receives its value, a later
   write to the same position wins, and the other positions keep theirs.
   */
  function Scatter(base: seq<nat>, idx: seq<nat>, vals: seq<nat>): (r: seq<nat>)
    requires |idx| == |vals|
    requires forall k :: 0 <= k < |idx| ==> idx[k] < |base|
    ensures |r| == |base|
    ensures forall i :: 0 <= i < |base| && i !in idx ==> r[i] == base[i]
    ensures forall k :: 0 <= k < |idx| && idx[k] !in idx[k + 1..] ==> r[idx[k]] == vals[k]
    decreases |idx|
  {
    if |idx| == 0 then base
    else
      var r := Scatter(base[idx[0] := vals[0]], idx[1..], vals[1..]);
      assert forall k :: 1 <= k < |idx| ==> idx[1..][k - 1] == idx[k] && idx[1..][k..] == idx[k + 1..];
      r
  }
}

=== FILE: csr.dfy ===
/**
 `read_edgelist`: from a parsed two-column table of node ids to the
 compressed-sparse-row pair (`ptr`, `neighs`) the walk engine consumes.
 */
module Csr {
  import opened Results
  import opened Sorting
  import opened ArrayOps
  import opened Edges

  /** Why a table is refused; the source raises an exception in each case. */
  datatype BuildError =
    | EmptyInput                          // no rows: not a 2-D table, and `np.amax` has nothing to reduce
    | BadRowWidth(row: nat, width: nat)   // a row that is not exactly two columns
    | IdOverflow(maxId: nat)              // `n = max + 1` or `n + 1` wraps in int32, and `np.zeros` refuses the negative size

  /** `ptr` has one offset per node plus a final one; `neighs` is the flat neighbour column. */
  datatype Graph = Graph(ptr: seq<nat>, neighs: seq<nat>)

  /** A non-empty table whose every row has exactly two columns. */
  predicate TwoColumnTable(rows: seq<seq<nat>>) {
    |rows| > 0 && forall i :: 0 <= i < |rows| ==> |rows[i]| == 2
  }

  /**
   Every id in the table is below `INT32_MAX - 1`, so that both the node
   count `n = max + 1` and the `ptr` length `n + 1` fit an int32.
   */
  predicate IdsFit(rows: seq<seq<nat>>) {
    forall i, c :: 0 <= i < |rows| && 0 <= c < |rows[i]| ==> rows[i][c] < Int32Max - 1
  }

  /** The index of the first row at or after `from` that is not two columns wide. */
  function FirstBadRow(rows: seq<seq<nat>>, from: nat): (k: nat)
    requires from <= |rows|
    ensures from <= k <= |rows|
    ensures forall j :: from <= j < k ==> |rows[j]| == 2
    ensures k < |rows| ==> |rows[k]| != 2
    decreases |rows| - from
  {
    if from == |rows| || |rows[from]| != 2 then from else FirstBadRow(rows, from + 1)
  }

  /** The rows of a two-column table read as (first, second) entries. */
  function RowEdges(rows: seq<seq<nat>>): (es: seq<Edge>)
    requires TwoColumnTable(rows)
    ensures |es| == |rows|
    ensures forall i :: 0 <= i < |rows| ==> es[i].src == rows[i][0] && es[i].dst == rows[i][1]
  {
    seq(|rows|, i requires 0 <= i < |rows| => Edge(rows[i][0], rows[i][1]))
  }

  /** The shape checks on the parsed table. */
  function ToEdges(rows: seq<seq<nat>>): (r: Result<seq<Edge>, BuildError>)
    ensures r.Ok? <==> TwoColumnTable(rows)
    ensures r.Ok? ==> r.value == RowEdges(rows)
    ensures r == Err(EmptyInput) <==> |rows| == 0
    ensures r.Err? && r.error.BadRowWidth? ==>
      && r.error.row < |rows|
      && r.error.width == |rows[r.error.row]| != 2
      && forall j :: 0 <= j < r.error.row ==> |rows[j]| == 2
    ensures r.Err? ==> r.error.EmptyInput? || r.error.BadRowWidth?
  {
    if |rows| == 0 then Err(EmptyInput)
    else
      var k := FirstBadRow(rows, 0);
      if k < |rows| then Err(BadRowWidth(k, |rows[k]|))
      else Ok(RowEdges(rows))
  }

  /** The directed entries built from the rows: each row oriented, then symmetrised. */
  function Entries(edges: seq<Edge>): (r: seq<Edge>)
    ensures |r| == 2 * |edges|
    ensures forall i :: 0 <= i < |edges| ==>
      && r[i].src <= r[i].dst
      && (r[i] == edges[i] || r[i] == Flip(edges[i]))
      && r[|edges| + i] == Flip(r[i])
  {
    Symmetrize(Canonicalize(edges))
  }

  /** `degs[vals] = counts` after `np.unique` on the source column. */
  function Degrees(sorted: seq<Edge>, n: nat): (degs: seq<nat>)
    requires forall k :: 0 <= k < |sorted| ==> sorted[k].src < n
    ensures |degs| == n
    ensures forall i :: 0 <= i < n ==> degs[i] == |OutOf(sorted, i)|
  {
    var (vals, counts) := Unique(Srcs(sorted));
    assert forall k :: 0 <= k < |vals| ==> vals[k] < n by {
      forall k | 0 <= k < |vals| ensures vals[k] < n {
        assert vals[k] in Srcs(sorted);
      }
    }
    var degs := Scatter(Zeros(n), vals, counts);
    DegreesFacts(sorted, n, vals, counts, degs);
    degs
  }

  /** Scattering the `np.unique` counts of the source column into zeros gives every node its out-degree. */
  lemma DegreesFacts(sorted: seq<Edge>, n: nat, vals: seq<nat>, counts: seq<nat>, degs: seq<nat>)
    requires forall k :: 0 <= k < |sorted| ==> sorted[k].src < n
    requires |vals| == |counts| && StrictlyIncreasing(vals)
    requires forall v :: v in vals <==> v in Srcs(sorted)
    requires forall k :: 0 <= k < |vals| ==> counts[k] == multiset(Srcs(sorted))[vals[k]]
    requires forall k :: 0 <= k < |vals| ==> vals[k] < n
    requires degs == Scatter(Zeros(n), vals, counts)
    ensures forall i :: 0 <= i < n ==> degs[i] == |OutOf(sorted, i)|
  {
    forall i | 0 <= i < n
      ensures degs[i] == |OutOf(sorted, i)|
    {
      SrcCount(sorted, i);
      if i in vals {
        var k :| 0 <= k < |vals| && vals[k] == i;
        assert i !in vals[k + 1..] by {
          forall j | k + 1 <= j < |vals| ensures vals[j] != i {
            assert vals[k] < vals[j];
          }
        }
      } else {
        assert i !in multiset(Srcs(sorted));
      }
    }
  }

  /** `ptr = zeros(n + 1); ptr[1:] = cumsum(degs)`. */
  function Offsets(degs: seq<nat>): (ptr: seq<nat>)
    ensures |ptr| == |degs| + 1
    ensures forall i :: 0 <= i <= |degs| ==> ptr[i] == Sum(degs[..i])
  {
    [0] + CumSum(degs)
  }

  /**
   `read_edgelist` on an already parsed table: check its shape, then build
   the graph from its rows. A successful build is the CSR form of the
   oriented, symmetrised rows over `NodeCount(rows)` nodes, holding every
   row twice.
   */
  function ReadEdgelist(rows: seq<seq<nat>>): (r: Result<Graph, BuildError>)
    ensures r.Ok? <==> TwoColumnTable(rows) && IdsFit(rows)
    ensures r == Err(EmptyInput) <==> |rows| == 0
    ensures TwoColumnTable(rows) && !IdsFit(rows) ==> r.Err? && r.error.IdOverflow?
    ensures r.Ok? ==> IsCsrOf(r.value, Entries(RowEdges(rows)), NodeCount(rows))
    ensures r.Ok? ==> |r.value.neighs| == 2 * |rows|
    ensures !TwoColumnTable(rows) ==> r.Err? && r.error == ToEdges(rows).error
  {
    match ToEdges(rows)
    case Err(e) => Err(e)
    case Ok(edges) =>
      assert edges == RowEdges(rows);
      BuildFromRows(rows);
      BuildGraph(edges)
  }

  /** The build applied to the rows of a well-shaped table, stated in terms of the table. */
  lemma BuildFromRows(rows: seq<seq<nat>>)
    requires TwoColumnTable(rows)
    ensures var b := BuildGraph(RowEdges(rows));
      && (b.Ok? <==> IdsFit(rows))
      && (b.Err? ==> b.error.IdOverflow?)
      && (b.Ok? ==> IsCsrOf(b.value, Entries(RowEdges(rows)), NodeCount(rows)))
      && (b.Ok? ==> |b.value.neighs| == 2 * |rows|)
  {
    var edges := RowEdges(rows);
    var m := MaxId(Canonicalize(edges));
    assert NodeCount(rows) == m + 1;
    MaxIdIsLargestRowId(rows);
    var b := BuildGraph(edges);
    if b.Ok? {
      assert IsCsrOf(b.value, Entries(edges), m + 1);
    }
  }

  /**
   Orient every row, add its reverse, argsort by `src * INT32_MAX + dst`,
   count degrees, prefix-sum them into `ptr` and take the destination column
   as `neighs`. The scalar `n = max id + 1` is an int32, so `np.zeros(n)`
   refuses a max id of `INT32_MAX` (n wraps negative) and `np.zeros(n + 1)`
   refuses a max id of `INT32_MAX - 1` (n + 1 wraps negative).
   */
  function BuildGraph(edges: seq<Edge>): (r: Result<Graph, BuildError>)
    requires |edges| > 0
    ensures r.Ok? <==> MaxId(Canonicalize(edges)) + 1 < Int32Max
    ensures r.Err? ==> r.error == IdOverflow(MaxId(Canonicalize(edges)))
    ensures r.Ok? ==> IsCsrOf(r.value, Entries(edges), MaxId(Canonicalize(edges)) + 1)
    ensures r.Ok? ==> |r.value.neighs| == 2 * |edges|
  {
    var canon := Canonicalize(edges);
    var maxId := MaxId(canon);
    if maxId + 1 >= Int32Max then Err(IdOverflow(maxId))
    else
      var n := maxId + 1;
      var entries := Symmetrize(canon);
      var sorted := SortedEntries(canon);
      SortedEntriesBounded(canon, sorted, maxId);
      KeySortedIsLexSorted(sorted);
      SortedEntriesFormCsr(entries, sorted, n);
      Ok(FromSorted(sorted, n))
  }

  /** `ptr` from the degrees of the sorted entries, `neighs` from their destination column. */
  function FromSorted(sorted: seq<Edge>, n: nat): (g: Graph)
    requires forall k :: 0 <= k < |sorted| ==> sorted[k].src < n
    ensures ValidOffsets(g, n)
    ensures |g.neighs| == |sorted|
    ensures forall k :: 0 <= k < |sorted| ==> g.neighs[k] == sorted[k].dst
    ensures forall v :: 0 <= v < n ==> g.ptr[v + 1] - g.ptr[v] == |OutOf(sorted, v)|
  {
    OffsetsCountBelow(sorted, n);
    BelowSteps(sorted, n);
    Graph(Offsets(Degrees(sorted, n)), Dsts(sorted))
  }

  /** The argsort of the symmetrised entries by `src * INT32_MAX + dst`. */
  function SortedEntries(canon: seq<Edge>): (sorted: seq<Edge>)
    ensures multiset(sorted) == multiset(Symmetrize(canon))
    ensures SortedBy(sorted, Key)
  {
    SortBy(Symmetrize(canon), Key)
  }

  /** One more than the largest id in the table: `n` in `read_edgelist`. */
  function NodeCount(rows: seq<seq<nat>>): (n: nat)
    requires TwoColumnTable(rows)
    ensures n >= 1
    ensures forall i :: 0 <= i < |rows| ==> rows[i][0] < n && rows[i][1] < n
    ensures exists i :: 0 <= i < |rows| && (rows[i][0] == n - 1 || rows[i][1] == n - 1)
  {
    CanonicalizeKeepsMaxId(RowEdges(rows));
    MaxId(Canonicalize(RowEdges(rows))) + 1
  }

  /** The node count is one more than the largest id of any row. */
  lemma MaxIdIsLargestRowId(rows: seq<seq<nat>>)
    requires TwoColumnTable(rows)
    ensures forall i, c :: 0 <= i < |rows| && 0 <= c < 2 ==> rows[i][c] < NodeCount(rows)
    ensures exists i, c :: 0 <= i < |rows| && 0 <= c < 2 && rows[i][c] == NodeCount(rows) - 1
    ensures IdsFit(rows) <==> NodeCount(rows) < Int32Max
  {
    var n := NodeCount(rows);
    if IdsFit(rows) {
      var i :| 0 <= i < |rows| && (rows[i][0] == n - 1 || rows[i][1] == n - 1);
      assert |rows[i]| == 2;
      assert rows[i][0] < Int32Max - 1 && rows[i][1] < Int32Max - 1;
    } else {
      var j, c :| 0 <= j < |rows| && 0 <= c < |rows[j]| && rows[j][c] >= Int32Max - 1;
      assert |rows[j]| == 2;
      assert rows[j][0] < n && rows[j][1] < n;
    }
  }

  /** Every id among the symmetrised, sorted entries is at most the largest row id. */
  lemma SortedEntriesBounded(canon: seq<Edge>, sorted: seq<Edge>, m: nat)
    requires forall i :: 0 <= i < |canon| ==> canon[i].src <= m && canon[i].dst <= m
    requires multiset(sorted) == multiset(Symmetrize(canon))
    ensures forall k :: 0 <= k < |sorted| ==> sorted[k].src <= m && sorted[k].dst <= m
  {
    var sym := Symmetrize(canon);
    assert forall k :: 0 <= k < |sym| ==> sym[k].src <= m && sym[k].dst <= m by {
      forall k | 0 <= k < |sym| ensures sym[k].src <= m && sym[k].dst <= m {
        if k >= |canon| {
          assert sym[k] == Flip(canon[k - |canon|]);
        }
      }
    }
    PermutationBound(sym, sorted, m);
  }

  /** The offsets start at 0, never decrease, and end at the length of `neighs`. */
  ghost predicate ValidOffsets(g: Graph, n: nat) {
    && |g.ptr| == n + 1
    && g.ptr[0] == 0
    && (forall i, j :: 0 <= i <= j <= n ==> g.ptr[i] <= g.ptr[j])
    && g.ptr[n] == |g.neighs|
  }

  /** The slice `neighs[ptr[v]:ptr[v + 1]]`: the neighbours of node `v`. */
  function Neighbours(g: Graph, n: nat, v: nat): seq<nat>
    requires ValidOffsets(g, n) && v < n
  {
    g.neighs[g.ptr[v]..g.ptr[v + 1]]
  }

  /**
   `g` is the compressed-sparse-row form of the directed `entries` over nodes
   `0..n`: one slice per node, each as long as the node's out-degree,
   holding exactly its destinations in ascending order, and nothing else.
   */
  ghost predicate IsCsrOf(g: Graph, entries: seq<Edge>, n: nat) {
    && ValidOffsets(g, n)
    && |g.neighs| == |entries|
    && (forall v :: 0 <= v < n ==> g.ptr[v + 1] - g.ptr[v] == |OutOf(entries, v)|)
    && (forall v :: 0 <= v < n ==> multiset(Neighbours(g, n, v)) == multiset(Dsts(OutOf(entries, v))))
    && (forall v :: 0 <= v < n ==> SortedBy(Neighbours(g, n, v), Id))
    && (forall j :: 0 <= j < |g.neighs| ==> g.neighs[j] < n)
  }

  /** The prefix sums of the degrees count the entries with a smaller source. */
  lemma {:induction false} PrefixIsBelow(sorted: seq<Edge>, degs: seq<nat>, i: nat)
    requires forall v :: 0 <= v < |degs| ==> degs[v] == |OutOf(sorted, v)|
    requires i <= |degs|
    ensures Sum(degs[..i]) == Below(sorted, i)
  {
    if i == 0 {
      BelowNone(sorted, 0);
    } else {
      PrefixIsBelow(sorted, degs, i - 1);
      assert degs[..i][..i - 1] == degs[..i - 1];
      BelowStep(sorted, i - 1);
    }
  }

  /** The offsets built from a sorted table count the entries below each node. */
  lemma OffsetsCountBelow(sorted: seq<Edge>, n: nat)
    requires forall k :: 0 <= k < |sorted| ==> sorted[k].src < n
    ensures ValidOffsets(Graph(Offsets(Degrees(sorted, n)), Dsts(sorted)), n)
    ensures forall i :: 0 <= i <= n ==> Offsets(Degrees(sorted, n))[i] == Below(sorted, i)
  {
    var degs := Degrees(sorted, n);
    var ptr := Offsets(degs);
    forall i | 0 <= i <= n ensures ptr[i] == Below(sorted, i) {
      PrefixIsBelow(sorted, degs, i);
    }
    forall i, j | 0 <= i <= j <= n ensures ptr[i] <= ptr[j] {
      BelowMonotone(sorted, i, j);
    }
    BelowAll(sorted, n);
  }

  /** Node `v`'s slice of a CSR laid over a sorted permutation of `entries`. */
  lemma SliceIsOutOf(entries: seq<Edge>, sorted: seq<Edge>, g: Graph, n: nat, v: nat)
    requires multiset(sorted) == multiset(entries)
    requires SortedLex(sorted)
    requires ValidOffsets(g, n) && g.neighs == Dsts(sorted)
    requires v < n && g.ptr[v] == Below(sorted, v) && g.ptr[v + 1] == Below(sorted, v + 1)
    ensures g.ptr[v + 1] - g.ptr[v] == |OutOf(entries, v)|
    ensures multiset(Neighbours(g, n, v)) == multiset(Dsts(OutOf(entries, v)))
    ensures SortedBy(Neighbours(g, n, v), Id)
  {
    var a, b := g.ptr[v], g.ptr[v + 1];
    SortedBlock(sorted, v);
    var block := sorted[a..b];
    assert block == OutOf(sorted, v);
    assert Neighbours(g, n, v) == Dsts(block);
    OutOfPermutation(sorted, entries, v);
    DstsPermutation(OutOf(sorted, v), OutOf(entries, v), v);
    forall j, k | 0 <= j < k < |block| ensures Id(block[j].dst) <= Id(block[k].dst) {
      assert LexLe(sorted[a + j], sorted[a + k]);
    }
  }

  /**
   Offsets that count the entries below each node, over the destination
   column of a lexicographically sorted permutation of `entries`, form the
   CSR of `entries`.
   */
  lemma BelowOffsetsFormCsr(entries: seq<Edge>, sorted: seq<Edge>, g: Graph, n: nat)
    requires multiset(sorted) == multiset(entries)
    requires SortedLex(sorted)
    requires forall k :: 0 <= k < |sorted| ==> sorted[k].dst < n
    requires ValidOffsets(g, n) && g.neighs == Dsts(sorted)
    requires forall i :: 0 <= i <= n ==> g.ptr[i] == Below(sorted, i)
    ensures IsCsrOf(g, entries, n)
  {
    assert |sorted| == |multiset(sorted)| == |entries|;
    forall v | 0 <= v < n
      ensures g.ptr[v + 1] - g.ptr[v] == |OutOf(entries, v)|
      ensures multiset(Neighbours(g, n, v)) == multiset(Dsts(OutOf(entries, v)))
      ensures SortedBy(Neighbours(g, n, v), Id)
    {
      SliceIsOutOf(entries, sorted, g, n, v);
    }
  }

  /**
   Degree counting, prefix sums and the destination column turn any
   lexicographically sorted permutation of `entries` into its CSR form.
   */
  lemma SortedEntriesFormCsr(entries: seq<Edge>, sorted: seq<Edge>, n: nat)
    requires multiset(sorted) == multiset(entries)
    requires SortedLex(sorted)
    requires forall k :: 0 <= k < |sorted| ==> sorted[k].src < n && sorted[k].dst < n
    ensures IsCsrOf(FromSorted(sorted, n), entries, n)
  {
    OffsetsCountBelow(sorted, n);
    var g := FromSorted(sorted, n);
    assert g == Graph(Offsets(Degrees(sorted, n)), Dsts(sorted));
    BelowOffsetsFormCsr(entries, sorted, g, n);
  }
}

=== FILE: csr_properties.dfy ===
/**
 Properties of the built graph beyond its defining invariants: adjacency
 counts read back against the input rows, independence from row order and
 from how the argsort breaks ties, and uniqueness of the CSR form.
 */
module CsrProperties {
  import opened Results
  import opened Sorting
  import opened ArrayOps
  import opened Edges
  import opened Csr

  /** How many rows join `u` and `v`, in either order. */
  function Occurrences(es: seq<Edge>, u: nat, v: nat): nat {
    if |es| == 0 then 0
    else (if Canonical(es[0]) == Canonical(Edge(u, v)) then 1 else 0) + Occurrences(es[1..], u, v)
  }

  /** After orientation an ascending pair occurs once per row joining its ends; a descending one never. */
  lemma {:induction false} CanonicalCount(es: seq<Edge>, e: Edge)
    ensures multiset(Canonicalize(es))[e] == if e.src <= e.dst then Occurrences(es, e.src, e.dst) else 0
  {
    if |es| > 0 {
      var t := es[1..];
      var c, ct := Canonicalize(es), Canonicalize(t);
      CanonicalCount(t, e);
      assert c == [Canonical(es[0])] + ct;
      var hit := Canonical(es[0]) == e;
      assert multiset(c)[e] == multiset(ct)[e] + (if hit then 1 else 0);
      if e.src <= e.dst {
        assert Canonical(Edge(e.src, e.dst)) == e;
      } else {
        assert !hit;
      }
    }
  }

  /**
   The directed entry (u, v) occurs once per row joining u and v, and twice
   per row when u == v: a self-loop is stored twice, a repeated row repeatedly.
   */
  lemma EntryCount(es: seq<Edge>, u: nat, v: nat)
    ensures multiset(Entries(es))[Edge(u, v)] == (if u == v then 2 else 1) * Occurrences(es, u, v)
  {
    SymmetrizeCount(Canonicalize(es), Edge(u, v));
    CanonicalCount(es, Edge(u, v));
    CanonicalCount(es, Edge(v, u));
    OccurrencesSymmetric(es, u, v);
  }

  /** Joining u to v is joining v to u. */
  lemma {:induction false} OccurrencesSymmetric(es: seq<Edge>, u: nat, v: nat)
    ensures Occurrences(es, u, v) == Occurrences(es, v, u)
  {
    if |es| > 0 {
      OccurrencesSymmetric(es[1..], u, v);
      assert Canonical(Edge(u, v)) == Canonical(Edge(v, u));
    }
  }

  /**
   In a successful build, `v` appears among the neighbours of `u` once for
   every row joining them (twice for a self-loop), so the adjacency read off
   `ptr` and `neighs` is symmetric.
   */
  lemma NeighbourCountMatchesRows(rows: seq<seq<nat>>, u: nat, v: nat)
    requires TwoColumnTable(rows) && IdsFit(rows)
    requires u < NodeCount(rows)
    ensures var g := ReadEdgelist(rows).value;
      && multiset(Neighbours(g, NodeCount(rows), u))[v]
         == (if u == v then 2 else 1) * Occurrences(RowEdges(rows), u, v)
      && (v < NodeCount(rows) ==>
          multiset(Neighbours(g, NodeCount(rows), u))[v] == multiset(Neighbours(g, NodeCount(rows), v))[u])
  {
    var g, n, es := ReadEdgelist(rows).value, NodeCount(rows), RowEdges(rows);
    var entries := Entries(es);
    NeighbourCountIsEntryCount(g, entries, n, u, v);
    EntryCount(es, u, v);
    if v < n {
      NeighbourCountIsEntryCount(g, entries, n, v, u);
      EntryCount(es, v, u);
      OccurrencesSymmetric(es, u, v);
    }
  }

  /** In a CSR form, the multiplicity of `d` in node `v`'s slice is that of the entry (v, d). */
  lemma NeighbourCountIsEntryCount(g: Graph, entries: seq<Edge>, n: nat, v: nat, d: nat)
    requires IsCsrOf(g, entries, n) && v < n
    ensures multiset(Neighbours(g, n, v))[d] == multiset(entries)[Edge(v, d)]
  {
    DstCount(OutOf(entries, v), v, d);
    OutOfCount(entries, v, Edge(v, d));
  }

  /**
   `np.argsort` does not promise a stable order, but on ids below `INT32_MAX`
   no two distinct entries share a key, so every key-sorted permutation is the
   one the model computes.
   */
  lemma ArgsortTiesInvisible(canon: seq<Edge>, t: seq<Edge>)
    requires IdsBelowInt32Max(canon)
    requires multiset(t) == multiset(Symmetrize(canon))
    requires SortedBy(t, Key)
    ensures t == SortedEntries(canon)
  {
    var sorted := SortedEntries(canon);
    var m := Int32Max - 1;
    SortedEntriesBounded(canon, t, m);
    KeySortedIsLexSorted(t);
    SortedPermutationUnique(t, sorted, Key);
  }

  /** Two tables holding the same multiset of oriented rows sort to the same entries. */
  lemma SameRowsSameSortedEntries(ca: seq<Edge>, cb: seq<Edge>)
    requires IdsBelowInt32Max(ca)
    requires multiset(ca) == multiset(cb)
    ensures SortedEntries(ca) == SortedEntries(cb)
  {
    forall e ensures multiset(Symmetrize(ca))[e] == multiset(Symmetrize(cb))[e] {
      SymmetrizeCount(ca, e);
      SymmetrizeCount(cb, e);
    }
    assert multiset(Symmetrize(ca)) == multiset(Symmetrize(cb));
    ArgsortTiesInvisible(ca, SortedEntries(cb));
  }

  /** The largest id depends only on which rows there are, not on their order. */
  lemma MaxIdPermutation(a: seq<Edge>, b: seq<Edge>)
    requires |a| > 0 && multiset(a) == multiset(b)
    ensures |b| > 0 && MaxId(a) == MaxId(b)
  {
    assert |b| == |multiset(b)| == |a|;
    PermutationBound(a, b, MaxId(a));
    PermutationBound(b, a, MaxId(b));
    var i :| 0 <= i < |a| && (a[i].src == MaxId(a) || a[i].dst == MaxId(a));
    assert a[i] in multiset(b);
    var j :| 0 <= j < |b| && (b[j].src == MaxId(b) || b[j].dst == MaxId(b));
    assert b[j] in multiset(a);
  }

  /**
   A largest id of `INT32_MAX - 1` is refused: `n = INT32_MAX` still fits an
   int32, but `n + 1`, the length of `ptr`, wraps negative.
   */
  lemma LargestIdOneBelowInt32MaxRefused()
    ensures ReadEdgelist([[0, Int32Max - 1], [0, 1]]) == Err(IdOverflow(Int32Max - 1))
  {
    var rows: seq<seq<nat>> := [[0, Int32Max - 1], [0, 1]];
    assert TwoColumnTable(rows);
    MaxIdIsLargestRowId(rows);
    assert NodeCount(rows) == Int32Max;
    ReadEdgelistIsBuildGraph(rows);
  }

  /** On a well-shaped table, `read_edgelist` is the graph build applied to its rows. */
  lemma ReadEdgelistIsBuildGraph(rows: seq<seq<nat>>)
    requires TwoColumnTable(rows)
    ensures ReadEdgelist(rows) == BuildGraph(RowEdges(rows))
  {
  }

  /**
   Reordering the rows, or writing any row the other way round, changes
   nothing: the same undirected multigraph yields the same `ptr` and `neighs`.
   */
  lemma ReorderedRowsSameGraph(a: seq<seq<nat>>, b: seq<seq<nat>>)
    requires TwoColumnTable(a) && TwoColumnTable(b)
    requires multiset(Canonicalize(RowEdges(a))) == multiset(Canonicalize(RowEdges(b)))
    ensures ReadEdgelist(a) == ReadEdgelist(b)
  {
    var ea, eb := RowEdges(a), RowEdges(b);
    var ca, cb := Canonicalize(ea), Canonicalize(eb);
    MaxIdPermutation(ca, cb);
    MaxIdIsLargestRowId(a);
    MaxIdIsLargestRowId(b);
    ReadEdgelistIsBuildGraph(a);
    ReadEdgelistIsBuildGraph(b);
    if MaxId(ca) + 1 < Int32Max {
      assert IdsBelowInt32Max(ca);
      SameRowsSameSortedEntries(ca, cb);
    }
  }

  /** Two CSR forms of the same entries have the same offsets up to node `i`. */
  lemma {:induction false} OffsetsAgree(g1: Graph, g2: Graph, entries: seq<Edge>, n: nat, i: nat)
    requires IsCsrOf(g1, entries, n) && IsCsrOf(g2, entries, n)
    requires i <= n
    ensures g1.ptr[i] == g2.ptr[i]
  {
    if i > 0 {
      OffsetsAgree(g1, g2, entries, n, i - 1);
    }
  }

  /** With equal offsets, the neighbour columns agree on the slices of nodes below `i`. */
  lemma {:induction false} PrefixesAgree(g1: Graph, g2: Graph, entries: seq<Edge>, n: nat, i: nat)
    requires IsCsrOf(g1, entries, n) && IsCsrOf(g2, entries, n)
    requires g1.ptr == g2.ptr
    requires i <= n
    ensures g1.neighs[..g1.ptr[i]] == g2.neighs[..g2.ptr[i]]
  {
    if i > 0 {
      PrefixesAgree(g1, g2, entries, n, i - 1);
      var a, b := g1.ptr[i - 1], g1.ptr[i];
      var s1, s2 := Neighbours(g1, n, i - 1), Neighbours(g2, n, i - 1);
      SortedPermutationUnique(s1, s2, Id);
      assert g1.neighs[..b] == g1.neighs[..a] + s1;
      assert g2.neighs[..b] == g2.neighs[..a] + s2;
    }
  }

  /**
   The CSR invariants pin the graph down completely: any two graphs that are
   the CSR form of the same entries over the same nodes are equal.
   */
  lemma CsrUnique(g1: Graph, g2: Graph, entries: seq<Edge>, n: nat)
    requires IsCsrOf(g1, entries, n) && IsCsrOf(g2, entries, n)
    ensures g1 == g2
  {
    forall i | 0 <= i <= n ensures g1.ptr[i] == g2.ptr[i] {
      OffsetsAgree(g1, g2, entries, n, i);
    }
    assert g1.ptr == g2.ptr;
    PrefixesAgree(g1, g2, entries, n, n);
    assert g1.neighs == g1.neighs[..g1.ptr[n]];
    assert g2.neighs == g2.neighs[..g2.ptr[n]];
  }
}

=== FILE: edges.dfy ===
/**
 Directed edge entries and the per-row transformations `read_edgelist`
 applies before sorting: orientation (`edges.sort(axis=1)`), the node count
 (`np.amax(edges) + 1`), symmetrisation (`np.vstack`) and the int64 sort
 key `src * INT32_MAX + dst`.
 */
module Edges {
  import opened Sorting

  /** `np.iinfo(np.int32).max`, the multiplier of the sort key. */
  const Int32Max: nat := 0x7FFF_FFFF

  /** One directed entry: a row of the (duplicated) edge table. */
  datatype Edge = Edge(src: nat, dst: nat)

  /** The same pair read the other way round (`edges[:, ::-1]`). */
  function Flip(e: Edge): Edge {
    Edge(e.dst, e.src)
  }

  /** The row with its two ids in ascending order. */
  function Canonical(e: Edge): (c: Edge)
    ensures c.src <= c.dst
    ensures c == e || c == Flip(e)
  {
    if e.src <= e.dst then e else Flip(e)
  }

  /** `edges.sort(axis=1)`: every row put in ascending order. */
  function Canonicalize(es: seq<Edge>): (r: seq<Edge>)
    ensures |r| == |es|
    ensures forall i :: 0 <= i < |es| ==> r[i].src <= r[i].dst && (r[i] == es[i] || r[i] == Flip(es[i]))
  {
    seq(|es|, i requires 0 <= i < |es| => Canonical(es[i]))
  }

  /** Every row reversed. */
  function Flips(es: seq<Edge>): (r: seq<Edge>)
    ensures |r| == |es|
    ensures forall i :: 0 <= i < |es| ==> r[i] == Flip(es[i])
  {
    if |es| == 0 then [] else [Flip(es[0])] + Flips(es[1..])
  }

  /** `np.vstack((edges, edges[:, ::-1]))`: the rows, then the same rows reversed. */
  function Symmetrize(es: seq<Edge>): (r: seq<Edge>)
    ensures |r| == 2 * |es|
    ensures forall i :: 0 <= i < |es| ==> r[i] == es[i] && r[|es| + i] == Flip(es[i])
  {
    es + Flips(es)
  }

  /**
   Every entry of the symmetrised table occurs exactly as often as its
   reverse, and both as often as the row or its reverse occurs in the input.
   */
  lemma SymmetrizeCount(es: seq<Edge>, e: Edge)
    ensures multiset(Symmetrize(es))[e] == multiset(es)[e] + multiset(es)[Flip(e)]
    ensures multiset(Symmetrize(es))[e] == multiset(Symmetrize(es))[Flip(e)]
  {
    FlipsCount(es, e);
    FlipsCount(es, Flip(e));
    assert Flip(Flip(e)) == e;
  }

  /** Reversing every row reverses the multiset of entries. */
  lemma {:induction false} FlipsCount(es: seq<Edge>, e: Edge)
    ensures multiset(Flips(es))[e] == multiset(es)[Flip(e)]
  {
    if |es| > 0 {
      var x, t := es[0], es[1..];
      FlipsCount(t, e);
      assert es == [x] + t;
      assert Flip(x) == e <==> x == Flip(e);
      if x == Flip(e) {
        assert multiset(Flips(es))[e] == multiset(Flips(t))[e] + 1;
        assert multiset(es)[Flip(e)] == multiset(t)[Flip(e)] + 1;
      } else {
        assert multiset(Flips(es))[e] == multiset(Flips(t))[e];
        assert multiset(es)[Flip(e)] == multiset(t)[Flip(e)];
      }
    }
  }

  /** The largest id in a non-empty table (`np.amax`). */
  function MaxId(es: seq<Edge>): (m: nat)
    requires |es| > 0
    ensures forall i :: 0 <= i < |es| ==> es[i].src <= m && es[i].dst <= m
    ensures exists i :: 0 <= i < |es| && (es[i].src == m || es[i].dst == m)
  {
    var here := if es[0].src <= es[0].dst then es[0].dst else es[0].src;
    if |es| == 1 then here
    else
      var rest := MaxId(es[1..]);
      var i :| 0 <= i < |es| - 1 && (es[1..][i].src == rest || es[1..][i].dst == rest);
      assert es[i + 1] == es[1..][i];
      if here <= rest then rest else here
  }

  /** Orienting every pair changes no id, so the largest id is the same. */
  lemma CanonicalizeKeepsMaxId(es: seq<Edge>)
    requires |es| > 0
    ensures MaxId(Canonicalize(es)) == MaxId(es)
  {
    var canon := Canonicalize(es);
    var i :| 0 <= i < |canon| && (canon[i].src == MaxId(canon) || canon[i].dst == MaxId(canon));
    assert canon[i] == es[i] || canon[i] == Flip(es[i]);
    var j :| 0 <= j < |es| && (es[j].src == MaxId(es) || es[j].dst == MaxId(es));
    assert canon[j] == es[j] || canon[j] == Flip(es[j]);
  }

  /** The source column. */
  function Srcs(es: seq<Edge>): (r: seq<nat>)
    ensures |r| == |es| && forall i :: 0 <= i < |es| ==> r[i] == es[i].src
  {
    seq(|es|, i requires 0 <= i < |es| => es[i].src)
  }

  /** The destination column (`sorted_edges[:, 1]`). */
  function Dsts(es: seq<Edge>): (r: seq<nat>)
    ensures |r| == |es| && forall i :: 0 <= i < |es| ==> r[i] == es[i].dst
  {
    seq(|es|, i requires 0 <= i < |es| => es[i].dst)
  }

  /** The entries of `es` whose source is `v`, in their original order. */
  function OutOf(es: seq<Edge>, v: nat): (r: seq<Edge>)
    ensures forall k :: 0 <= k < |r| ==> r[k].src == v
  {
    if |es| == 0 then []
    else (if es[0].src == v then [es[0]] else []) + OutOf(es[1..], v)
  }

  /** `OutOf` keeps every entry leaving `v`, as often as it occurs, and nothing else. */
  lemma {:induction false} OutOfCount(es: seq<Edge>, v: nat, e: Edge)
    ensures multiset(OutOf(es, v))[e] == if e.src == v then multiset(es)[e] else 0
  {
    if |es| > 0 {
      OutOfCount(es[1..], v, e);
      assert es == [es[0]] + es[1..];
    }
  }

  /** How many entries of `es` have a source below `v`. */
  function Below(es: seq<Edge>, v: nat): nat {
    if |es| == 0 then 0
    else (if es[0].src < v then 1 else 0) + Below(es[1..], v)
  }

  /**
   The int64 key the entries are argsorted by. While the destination is
   below `INT32_MAX`, the key encodes the pair: division recovers the source
   and the remainder the destination.
   */
  function Key(e: Edge): (k: int)
    ensures k >= 0
    ensures e.dst < Int32Max ==> k / Int32Max == e.src && k % Int32Max == e.dst
  {
    e.src * Int32Max + e.dst
  }

  /** Lexicographic order on (source, destination). */
  predicate LexLe(a: Edge, b: Edge) {
    a.src < b.src || (a.src == b.src && a.dst <= b.dst)
  }

  /** Entries in lexicographic (source, destination) order. */
  predicate SortedLex(es: seq<Edge>) {
    forall i, j :: 0 <= i < j < |es| ==> LexLe(es[i], es[j])
  }

  /** Every id in the table is below `INT32_MAX`. */
  predicate IdsBelowInt32Max(es: seq<Edge>) {
    forall i :: 0 <= i < |es| ==> es[i].src < Int32Max && es[i].dst < Int32Max
  }

  /**
   While destinations stay below `INT32_MAX`, comparing keys is comparing
   (source, destination) lexicographically, and equal keys mean equal entries.
   */
  lemma KeyOrderIsLex(a: Edge, b: Edge)
    requires a.dst < Int32Max && b.dst < Int32Max
    ensures Key(a) <= Key(b) <==> LexLe(a, b)
    ensures Key(a) == Key(b) <==> a == b
  {
    if a.src < b.src {
      assert (a.src + 1) * Int32Max <= b.src * Int32Max;
    } else if b.src < a.src {
      assert (b.src + 1) * Int32Max <= a.src * Int32Max;
    }
  }

  /** Under the same bound on ids the key never overflows an int64. */
  lemma KeyFitsInt64(e: Edge)
    requires e.src < Int32Max && e.dst < Int32Max
    ensures 0 <= Key(e) < 0x8000_0000_0000_0000
  {
    assert e.src * Int32Max <= (Int32Max - 1) * Int32Max;
  }

  /** Sorting by key sorts lexicographically and leaves no ties between distinct entries. */
  lemma KeySortedIsLexSorted(es: seq<Edge>)
    requires IdsBelowInt32Max(es)
    ensures SortedBy(es, Key) <==> SortedLex(es)
    ensures KeyInjectiveOn(es, Key)
  {
    forall i, j | 0 <= i < |es| && 0 <= j < |es|
      ensures Key(es[i]) <= Key(es[j]) <==> LexLe(es[i], es[j])
      ensures Key(es[i]) == Key(es[j]) <==> es[i] == es[j]
    {
      KeyOrderIsLex(es[i], es[j]);
    }
  }

  /** A permutation keeps every id within the same bound. */
  lemma PermutationBound(a: seq<Edge>, b: seq<Edge>, m: nat)
    requires multiset(a) == multiset(b)
    requires forall k :: 0 <= k < |a| ==> a[k].src <= m && a[k].dst <= m
    ensures forall k :: 0 <= k < |b| ==> b[k].src <= m && b[k].dst <= m
  {
    forall k | 0 <= k < |b|
      ensures b[k].src <= m && b[k].dst <= m
    {
      assert b[k] in multiset(a);
    }
  }

  /** Counting a source id in the source column counts the entries leaving it. */
  lemma {:induction false} SrcCount(es: seq<Edge>, v: nat)
    ensures multiset(Srcs(es))[v] == |OutOf(es, v)|
  {
    if |es| > 0 {
      SrcCount(es[1..], v);
      assert Srcs(es) == [es[0].src] + Srcs(es[1..]);
    }
  }

  /** Among entries that all leave `v`, counting a destination counts the entry (v, d). */
  lemma {:induction false} DstCount(es: seq<Edge>, v: nat, d: nat)
    requires forall k :: 0 <= k < |es| ==> es[k].src == v
    ensures multiset(Dsts(es))[d] == multiset(es)[Edge(v, d)]
  {
    if |es| > 0 {
      var x, t := es[0], es[1..];
      DstCount(t, v, d);
      assert es == [x] + t;
      assert Dsts(es) == [x.dst] + Dsts(t);
      assert x == Edge(v, x.dst);
      if x.dst == d {
        assert multiset(Dsts(es))[d] == multiset(Dsts(t))[d] + 1;
        assert multiset(es)[Edge(v, d)] == multiset(t)[Edge(v, d)] + 1;
      } else {
        assert multiset(Dsts(es))[d] == multiset(Dsts(t))[d];
        assert multiset(es)[Edge(v, d)] == multiset(t)[Edge(v, d)];
      }
    }
  }

  /** Raising the bound by one adds exactly the entries leaving the old bound. */
  lemma {:induction false} BelowStep(es: seq<Edge>, v: nat)
    ensures Below(es, v + 1) == Below(es, v) + |OutOf(es, v)|
  {
    if |es| > 0 {
      BelowStep(es[1..], v);
    }
  }

  /** Between consecutive bounds the count grows by the out-degree of the node between them. */
  lemma BelowSteps(es: seq<Edge>, n: nat)
    ensures forall v :: 0 <= v < n ==> Below(es, v + 1) - Below(es, v) == |OutOf(es, v)|
  {
    forall v | 0 <= v < n ensures Below(es, v + 1) - Below(es, v) == |OutOf(es, v)| {
      BelowStep(es, v);
    }
  }

  /** `Below` is monotone in its bound and never exceeds the table. */
  lemma {:induction false} BelowMonotone(es: seq<Edge>, v: nat, w: nat)
    requires v <= w
    ensures Below(es, v) <= Below(es, w) <= |es|
  {
    if |es| > 0 {
      BelowMonotone(es[1..], v, w);
    }
  }

  /** When every source is below `n`, every entry is counted. */
  lemma {:induction false} BelowAll(es: seq<Edge>, n: nat)
    requires forall k :: 0 <= k < |es| ==> es[k].src < n
    ensures Below(es, n) == |es|
  {
    if |es| > 0 {
      BelowAll(es[1..], n);
    }
  }

  /** When every source is at least `v`, nothing is counted. */
  lemma {:induction false} BelowNone(es: seq<Edge>, v: nat)
    requires forall k :: 0 <= k < |es| ==> es[k].src >= v
    ensures Below(es, v) == 0
  {
    if |es| > 0 {
      BelowNone(es[1..], v);
    }
  }

  /**
   In a lexicographically sorted table the entries leaving `v` are exactly the
   contiguous block between the entries with smaller sources and those with
   larger ones.
   */
  lemma {:induction false} SortedBlock(es: seq<Edge>, v: nat)
    requires SortedLex(es)
    ensures Below(es, v) <= Below(es, v + 1) <= |es|
    ensures es[Below(es, v)..Below(es, v + 1)] == OutOf(es, v)
  {
    BelowMonotone(es, v, v + 1);
    if |es| > 0 {
      var x, t := es[0], es[1..];
      assert SortedLex(t);
      SortedBlock(t, v);
      var a, b := Below(t, v), Below(t, v + 1);
      if x.src < v {
        assert Below(es, v) == a + 1 && Below(es, v + 1) == b + 1;
        assert es[a + 1..b + 1] == t[a..b];
      } else {
        LaterSourcesNotSmaller(es);
        if x.src == v {
          BelowNone(t, v);
          assert es[0..b + 1] == [x] + t[0..b];
        } else {
          BelowNone(t, v + 1);
          BelowMonotone(t, v, v + 1);
        }
      }
    }
  }

  /** In a sorted table no later entry has a smaller source than the first. */
  lemma LaterSourcesNotSmaller(es: seq<Edge>)
    requires SortedLex(es) && |es| > 0
    ensures forall k :: 0 <= k < |es| - 1 ==> es[1..][k].src >= es[0].src
  {
    forall k | 0 <= k < |es| - 1 ensures es[1..][k].src >= es[0].src {
      assert LexLe(es[0], es[k + 1]);
    }
  }

  /** Permuting a table permutes the entries leaving each node. */
  lemma OutOfPermutation(a: seq<Edge>, b: seq<Edge>, v: nat)
    requires multiset(a) == multiset(b)
    ensures multiset(OutOf(a, v)) == multiset(OutOf(b, v))
    ensures |OutOf(a, v)| == |OutOf(b, v)|
  {
    forall e ensures multiset(OutOf(a, v))[e] == multiset(OutOf(b, v))[e] {
      OutOfCount(a, v, e);
      OutOfCount(b, v, e);
    }
    assert multiset(OutOf(a, v)) == multiset(OutOf(b, v));
    assert |OutOf(a, v)| == |multiset(OutOf(a, v))|;
  }

  /** Two permuted tables of entries leaving `v` have permuted destination columns. */
  lemma DstsPermutation(a: seq<Edge>, b: seq<Edge>, v: nat)
    requires forall k :: 0 <= k < |a| ==> a[k].src == v
    requires forall k :: 0 <= k < |b| ==> b[k].src == v
    requires multiset(a) == multiset(b)
    ensures multiset(Dsts(a)) == multiset(Dsts(b))
  {
    forall d ensures multiset(Dsts(a))[d] == multiset(Dsts(b))[d] {
      DstCount(a, v, d);
      DstCount(b, v, d);
    }
  }
}

=== FILE: results.dfy ===
/** Success/failure wrapper shared by the graph builder and the walk-buffer setup. */
module Results {

  /** Either the value an operation produced or the reason it refused its input. */
  datatype Result<+T, +E> = Ok(value: T) | Err(error: E)
}

=== FILE: sorting.dfy ===
/**
 Sorting by an integer key, as `np.argsort` followed by fancy indexing does it:
 the result is a permutation of the input whose keys ascend.
 */
module Sorting {

  /** The keys of `s` ascend from left to right. */
  predicate SortedBy<T>(s: seq<T>, key: T -> int) {
    forall i, j :: 0 <= i < j < |s| ==> key(s[i]) <= key(s[j])
  }

  /** No two elements of `s` with the same key differ. */
  predicate KeyInjectiveOn<T(==)>(s: seq<T>, key: T -> int) {
    forall i, j :: 0 <= i < |s| && 0 <= j < |s| && key(s[i]) == key(s[j]) ==> s[i] == s[j]
  }

  /** Prefixing an element no larger than the head keeps a sequence sorted. */
  lemma SortedCons<T>(y: T, s: seq<T>, key: T -> int)
    requires SortedBy(s, key)
    requires |s| > 0 ==> key(y) <= key(s[0])
    ensures SortedBy([y] + s, key)
  {
    var r := [y] + s;
    forall i, j | 0 <= i < j < |r|
      ensures key(r[i]) <= key(r[j])
    {
      if i > 0 {
        assert r[i] == s[i - 1] && r[j] == s[j - 1];
      } else {
        assert r[j] == s[j - 1];
        assert key(s[0]) <= key(s[j - 1]) || j - 1 == 0;
      }
    }
  }

  /** Places `x` into the already sorted `s`. */
  function Insert<T>(x: T, s: seq<T>, key: T -> int): (r: seq<T>)
    requires SortedBy(s, key)
    ensures multiset(r) == multiset(s) + multiset{x}
    ensures SortedBy(r, key)
    ensures r[0] == x || (|s| > 0 && r[0] == s[0])
  {
    if |s| == 0 then [x]
    else if key(x) <= key(s[0]) then
      SortedCons(x, s, key);
      [x] + s
    else
      assert s == [s[0]] + s[1..];
      var rest := Insert(x, s[1..], key);
      assert |s| > 1 ==> key(s[0]) <= key(s[1]);
      SortedCons(s[0], rest, key);
      [s[0]] + rest
  }

  /** A key-sorted permutation of `s`. */
  function SortBy<T>(s: seq<T>, key: T -> int): (r: seq<T>)
    ensures multiset(r) == multiset(s)
    ensures SortedBy(r, key)
  {
    if |s| == 0 then []
    else
      assert s == [s[0]] + s[1..];
      Insert(s[0], SortBy(s[1..], key), key)
  }

  /** The first element of a sorted sequence has the least key of all its elements. */
  lemma HeadIsLeast<T>(s: seq<T>, key: T -> int, x: T)
    requires SortedBy(s, key)
    requires x in multiset(s)
    ensures key(s[0]) <= key(x)
  {
    var i :| 0 <= i < |s| && s[i] == x;
    if i > 0 {
      assert key(s[0]) <= key(s[i]);
    }
  }

  /**
   When equal keys only ever belong to equal elements, a key-sorted
   permutation is unique: how ties are broken cannot change the result.
   */
  lemma {:induction false} SortedPermutationUnique<T>(s: seq<T>, t: seq<T>, key: T -> int)
    requires SortedBy(s, key) && SortedBy(t, key)
    requires multiset(s) == multiset(t)
    requires KeyInjectiveOn(s, key)
    ensures s == t
  {
    if |s| == 0 {
      assert |multiset(t)| == 0;
    } else {
      assert |t| == |multiset(t)| == |s|;
      HeadIsLeast(t, key, s[0]);
      HeadIsLeast(s, key, t[0]);
      var i :| 0 <= i < |s| && s[i] == t[0];
      assert s[0] == t[0];
      assert s == [s[0]] + s[1..];
      assert t == [t[0]] + t[1..];
      assert multiset(s[1..]) == multiset(s) - multiset{s[0]};
      assert multiset(t[1..]) == multiset(t) - multiset{t[0]};
      SortedPermutationUnique(s[1..], t[1..], key);
    }
  }
}

=== FILE: walks.dfy ===
/**
 The part of `random_walk` that runs before the native walk engine is called:
 deriving the node count from `ptr` and allocating the walk matrix, every
 cell pre-set to the "not written" sentinel, plus the flat row-major view of
 that matrix handed to the engine.
 */
module Walks {
  import opened Results
  import Csr

  /** The sentinel a cell holds until the engine writes a node id into it. */
  const Unwritten: int := -1

  /** `np.ones` refuses a shape with a negative dimension. */
  datatype AllocError = NegativeDimension(rows: int, cols: int)

  /** `buf` is a `rows` x `cols` matrix whose every cell is `x`. */
  ghost predicate FilledMatrix(buf: seq<seq<int>>, rows: nat, cols: nat, x: int) {
    && |buf| == rows
    && (forall k :: 0 <= k < rows ==> |buf[k]| == cols)
    && (forall k, c :: 0 <= k < rows && 0 <= c < cols ==> buf[k][c] == x)
  }

  /**
   `n = ptr.size - 1; walks = -np.ones((n * num_walks, num_steps + 1))`:
   one row per walk, one column per visited node, all cells `-1`. The
   parameters default to `num_walks=10` and `num_steps=3`, as in the source.
   */
  function WalkBuffer(ptr: seq<int>, numWalks: int := 10, numSteps: int := 3): (r: Result<seq<seq<int>>, AllocError>)
    ensures r.Ok? <==> (|ptr| - 1) * numWalks >= 0 && numSteps + 1 >= 0
    ensures r.Err? ==> r.error == NegativeDimension((|ptr| - 1) * numWalks, numSteps + 1)
    ensures r.Ok? ==> FilledMatrix(r.value, (|ptr| - 1) * numWalks, numSteps + 1, Unwritten)
  {
    var n := |ptr| - 1;
    var rows, cols := n * numWalks, numSteps + 1;
    if rows < 0 || cols < 0 then Err(NegativeDimension(rows, cols))
    else Ok(seq(rows, _ => seq(cols, _ => Unwritten)))
  }

  /** `np.reshape(walks, (walks.size,))`: the rows laid end to end. */
  function Flatten(buf: seq<seq<int>>): (r: seq<int>)
    ensures forall x :: x in r <==> exists k :: 0 <= k < |buf| && x in buf[k]
  {
    if |buf| == 0 then []
    else
      var rest := Flatten(buf[1..]);
      assert forall k :: 1 <= k < |buf| ==> buf[k] == buf[1..][k - 1];
      buf[0] + rest
  }

  /** With the default parameters, a graph of n nodes gets `10 * n` walks of 4 cells. */
  lemma DefaultBufferShape(ptr: seq<int>)
    requires |ptr| >= 1
    ensures WalkBuffer(ptr).Ok?
    ensures FilledMatrix(WalkBuffer(ptr).value, (|ptr| - 1) * 10, 4, Unwritten)
  {
    BufferForNodes(ptr, |ptr| - 1, 10, 3);
  }

  /** The flat view of a `rows` x `cols` matrix has `rows * cols` cells. */
  lemma {:induction false} FlattenLength(buf: seq<seq<int>>, rows: nat, cols: nat)
    requires |buf| == rows && forall k :: 0 <= k < rows ==> |buf[k]| == cols
    ensures |Flatten(buf)| == rows * cols
  {
    if rows > 0 {
      FlattenLength(buf[1..], rows - 1, cols);
      assert rows * cols == cols + (rows - 1) * cols;
    }
  }

  /** In the flat view, cell (k, c) of a `cols`-wide matrix sits at offset `k * cols + c`. */
  lemma {:induction false} FlattenCell(buf: seq<seq<int>>, rows: nat, cols: nat, k: nat, c: nat)
    requires |buf| == rows && forall i :: 0 <= i < rows ==> |buf[i]| == cols
    requires k < rows && c < cols
    ensures k * cols + c < |Flatten(buf)| && Flatten(buf)[k * cols + c] == buf[k][c]
  {
    FlattenLength(buf, rows, cols);
    if k > 0 {
      FlattenCell(buf[1..], rows - 1, cols, k - 1, c);
      assert buf[1..][k - 1] == buf[k];
      assert k * cols + c == cols + ((k - 1) * cols + c);
    }
  }

  /** A matrix whose every cell is `x` flattens to cells that are all `x`. */
  lemma {:induction false} FlattenFilled(buf: seq<seq<int>>, rows: nat, cols: nat, x: int)
    requires FilledMatrix(buf, rows, cols, x)
    ensures |Flatten(buf)| == rows * cols
    ensures forall j :: 0 <= j < |Flatten(buf)| ==> Flatten(buf)[j] == x
  {
    FlattenLength(buf, rows, cols);
    if rows > 0 {
      FlattenFilled(buf[1..], rows - 1, cols, x);
      assert forall c :: 0 <= c < cols ==> buf[0][c] == x;
    }
  }

  /**
   The engine receives `n * num_walks * (num_steps + 1)` cells, all `-1`,
   where `n = ptr.size - 1`.
   */
  lemma FlatBufferUnwritten(ptr: seq<int>, numWalks: int, numSteps: int)
    requires WalkBuffer(ptr, numWalks, numSteps).Ok?
    ensures var flat := Flatten(WalkBuffer(ptr, numWalks, numSteps).value);
      && |flat| == (|ptr| - 1) * numWalks * (numSteps + 1)
      && forall j :: 0 <= j < |flat| ==> flat[j] == Unwritten
  {
    FlattenFilled(WalkBuffer(ptr, numWalks, numSteps).value, (|ptr| - 1) * numWalks, numSteps + 1, Unwritten);
  }

  /**
   For offsets describing `n` nodes and non-negative walk parameters, the
   buffer always exists and has one row per walk from every node.
   */
  lemma BufferForNodes(ptr: seq<int>, n: nat, numWalks: nat, numSteps: nat)
    requires |ptr| == n + 1
    ensures WalkBuffer(ptr, numWalks, numSteps).Ok?
    ensures FilledMatrix(WalkBuffer(ptr, numWalks, numSteps).value, n * numWalks, numSteps + 1, Unwritten)
  {
    assert n * numWalks >= 0;
  }

  /**
   On a graph `read_edgelist` built, the buffer always exists and has
   `NodeCount(rows) * num_walks` rows.
   */
  lemma BufferForBuiltGraph(rows: seq<seq<nat>>, numWalks: nat, numSteps: nat)
    requires Csr.TwoColumnTable(rows) && Csr.IdsFit(rows)
    ensures Csr.ReadEdgelist(rows).Ok?
    ensures var r := WalkBuffer(Csr.ReadEdgelist(rows).value.ptr, numWalks, numSteps);
      r.Ok? && FilledMatrix(r.value, Csr.NodeCount(rows) * numWalks, numSteps + 1, Unwritten)
  {
    PtrCoversNodes(rows);
    var ptr := Csr.ReadEdgelist(rows).value.ptr;
    BufferForNodes(ptr, Csr.NodeCount(rows), numWalks, numSteps);
  }

  /** `ptr.size - 1` recovers the node count `read_edgelist` computed. */
  lemma PtrCoversNodes(rows: seq<seq<nat>>)
    requires Csr.TwoColumnTable(rows) && Csr.IdsFit(rows)
    ensures Csr.ReadEdgelist(rows).Ok?
    ensures |Csr.ReadEdgelist(rows).value.ptr| == Csr.NodeCount(rows) + 1
  {
    assert Csr.IsCsrOf(Csr.ReadEdgelist(rows).value, Csr.Entries(Csr.RowEdges(rows)), Csr.NodeCount(rows));
  }
}
